=== FILE: README.md ===
# Hover-distortion gallery: plane mirror and hover controller

This project models the orchestration logic of a WebGL image gallery written in
JavaScript (`src/main.js`). Every `<img>` on the page is mirrored by a textured
plane in a three.js scene. The plane has the image's size and is centred on
the image at the one-pixel-per-unit scale the camera is set up for at startup.
It is re-positioned on every animation frame and scroll event.
On each pointer move, the nearest plane under the pointer is "lit" by a
distortion shader: its `uHover` uniform becomes 1 and its `uMouse` uniform
becomes the surface coordinate of the hit. Every other plane is reset to
`uHover` 0.

The model is functional. Images, boxes, planes and the whole page state are
immutable datatypes over `real`. Each handler is a pure function from the old
state and its inputs to the new state.

- `base.dfy` (`Base`): `Option`, `Num` (a JavaScript number that is either
  finite or non-finite), `Div` (JavaScript `/`), 2- and 3-vectors.
- `layout.dfy` (`Layout`): bounding boxes, the viewport, and the mapping from
  scene space (centre origin, y up) to screen space (top-left origin, y down)
  at the one-pixel-per-unit scale of startup. Also the plane position formula,
  with what it means: at that scale the plane's centre maps to the image's
  centre.
- `planes.dfy` (`PlaneMirror`): planes and their uniforms, plane construction
  at startup, and `updatePlanePosition` (`Resync`).
- `pointer.dfy` (`Pointer`): normalisation of client pixels to the [-1, 1]
  ray-casting coordinates, and its inverse.
- `hover.dfy` (`HoverController`): the reset-then-light update of
  `onMouseMove`. The ray caster's nearest hit is an input.
- `stage.dfy` (`Stage`): the whole page state (planes, camera, pointer,
  drawing surface) and the events that change it. These are startup,
  re-positioning (DOMContentLoaded, animation frame, scroll), pointer move and
  window resize. `Stage.Project` says where the camera actually draws a point
  of the plane z = 0, using the height its field of view was set up for. The module also
  defines runs of arbitrary event sequences and the invariant they keep.

Inputs that come from the browser or from three.js are parameters:
- `getBoundingClientRect` results are `Box` values.
- `innerWidth`/`innerHeight` form a `Viewport`.
- The pointer's client point is a `Vec2`.
- The ray caster's nearest intersection is an `Option<Hit>`. A hit holds the
  hit plane's index and the surface coordinate.
- The camera's field of view is represented by the scene height it shows at
  z = 0 (`Camera.viewHeight`). The source picks the angle with `Math.atan` so
  that this height equals the startup window height.

A division by a zero window dimension gives a non-finite JavaScript number.
The model keeps that as `Num.NonFinite` and does not exclude it.

## Model

| member | source | states |
|---|---|---|
| Base.Div | src/main.js:120 | JavaScript division: the result is finite exactly when the divisor is non-zero, and then the quotient times the divisor is the dividend |
| Base.Affine | src/main.js:87-88 | the `* 2 - 1` and `* 2 + 1` steps: the result is finite exactly when the operand is, and then undoing the step gives the operand back |
| Layout.PlanePosition | src/main.js:68 | a plane's position lies in the plane z = 0, and at the startup one-unit-per-pixel scale that point maps to the centre of the image's box |
| Layout.PlanePositionUnique | src/main.js:78-82 | the position is the only point of z = 0 that maps to the box centre at the startup scale (both directions) |
| Layout.PlaneCoversBox | src/main.js:66-68 | at the startup scale, a plane of the box's size at that position has its top-left and bottom-right corners on the box's corners |
| Layout.PlanePositionExample | src/main.js:68 | box (100, 50, 200, 80) in a 1000 x 800 window gives position (-300, 310, 0) |
| PlaneMirror.MakePlane | src/main.js:53-68 | a new plane's geometry has the box's width and height and its texture is the image's source. It starts with uMouse = (0.5, 0.5) and uHover = 0, and its position maps to the box centre at the startup scale |
| PlaneMirror.Initialize | src/main.js:52-71 | startup yields exactly one plane per image, and the plane at each index is built from the image at that index, in document order |
| PlaneMirror.InitializeMatchesImages | src/main.js:62-68 | each plane built at startup has its own image's size, texture and initial uniforms, and its position maps to that image's centre at the startup scale |
| PlaneMirror.Resync | src/main.js:74-84 | re-positioning keeps the number of planes and each plane's geometry and uniforms. Each plane's new position maps, at the startup scale, to the centre of the current box of the image with the same index |
| PlaneMirror.ResyncMemoryless | src/main.js:74-84 | the result does not depend on where the planes were before: planes that differ only in position re-position identically |
| PlaneMirror.ResyncIdempotent | src/main.js:74-84 | re-positioning twice with the same boxes and window equals re-positioning once |
| PlaneMirror.InitializeAgreesWithResync | src/main.js:68-82 | the startup position equals what re-positioning computes for the same boxes and window, so re-positioning right after startup changes nothing |
| Pointer.Normalize | src/main.js:87-88 | each axis is finite exactly when its window dimension is non-zero; x satisfies (x + 1) * width = 2 * clientX and y satisfies (1 - y) * height = 2 * clientY |
| Pointer.NormalizeRoundTrip | src/main.js:87-88 | in a window of non-zero size, mapping the normalised point back gives the client point again |
| Pointer.DenormalizeRoundTrip | src/main.js:87-88 | every finite pair of normalised coordinates is the normalisation of the client point it stands for |
| Pointer.NormalizeCorners | src/main.js:87-88 | clientX = 0 gives -1 and clientX = width gives 1; clientY = 0 gives 1 and clientY = height gives -1 |
| Pointer.NormalizeMonotone | src/main.js:87-88 | in a window of positive size, x increases strictly with clientX and y decreases strictly with clientY (both directions) |
| Pointer.NormalizeInsideWindow | src/main.js:87-88 | a pointer is inside the window exactly when both normalised coordinates are in [-1, 1] |
| HoverController.ResetHover | src/main.js:93-96 | every plane's uHover becomes 0, and geometry, texture, position and uMouse stay as they were |
| HoverController.OnMouseMove | src/main.js:93-104 | the hit plane gets uHover = 1 and uMouse = the hit's surface coordinate. Every other plane gets uHover = 0 and keeps its uMouse, and no plane's geometry, texture or position changes |
| HoverController.HoveredAfterMove | src/main.js:93-104 | after a pointer move the set of lit planes is exactly {hit index} on a hit and empty on a miss, whatever was lit before |
| HoverController.MoveEstablishesHoverInvariant | src/main.js:93-104 | after a pointer move every plane has uHover 0 or 1 and at most one has 1 |
| HoverController.MissAfterHitClearsAll | src/main.js:94-96 | a move that hits nothing, after a move that lit a plane, leaves every plane at uHover 0 |
| HoverController.LatestHitWins | src/main.js:94-103 | a hit on the plane the previous move lit (or after a miss) gives the same planes as that hit alone: a plane that stays under the pointer stays lit |
| HoverController.TotalHoverAfterMove | src/main.js:93-104 | after a pointer move the uHover values sum to 1 on a hit and 0 on a miss |
| Stage.Startup | src/main.js:7-72 | the camera's view height (the field of view's visible scene height at z = 0) is the window's height, distance 600, near 0.1, far 1000 and aspect width / height (non-finite for a zero height). The surface has the window's size, the pointer is (0, 0), and the planes are those built from the images |
| Stage.UpdatePlanePosition | src/main.js:107-126 | re-positioning on load, per frame and per scroll changes only plane positions, each set from its image's current box |
| Stage.MouseMove | src/main.js:86-105 | a pointer move stores the normalised pointer and applies the hover update to the planes. The hit plane gets uHover = 1 and uMouse = the hit's surface coordinate. Every other plane gets uHover = 0 and keeps its uMouse. Camera, surface and every plane's geometry, texture and position are unchanged |
| Stage.Resize | src/main.js:119-123 | a resize sets aspect so that aspect * height = width (non-finite for a zero height) and the surface to the new size. The view height (the field of view), clipping planes, camera distance, planes and pointer are unchanged |
| Stage.Project | src/main.js:8-9 | for a point of the plane z = 0 and a camera whose aspect is set to the surface's: the point is drawn only with a non-zero view height. Its offset from the surface centre is its scene offset times surface height / view height, on both axes and with y flipped. While the window has the height the camera was set up for, that is the one-unit-per-pixel screen point |
| Stage.AlignedAtStartupHeight | src/main.js:74-84 | while the window keeps its startup height, re-positioning draws every plane's centre on its image's centre |
| Stage.DriftAfterHeightChange | src/main.js:119-123 | at any other window height, a re-positioned plane is drawn on its image's centre only if its position is the scene origin (both directions) |
| Stage.DriftExample | src/main.js:119-123 | box (100, 50, 200, 80), set up in 1000 x 800, resized to 1000 x 400 and re-positioned, is drawn at (350, 145), not at its centre (200, 90) |
| Stage.RunKeepsAspect | src/main.js:119-120 | after any sequence of events the camera's aspect is still the drawing surface's width / height, as startup and every resize set it |
| Stage.ResizeIdempotent | src/main.js:119-123 | resizing twice to the same window equals resizing once |
| Stage.StartupValid | src/main.js:52-71 | startup gives one plane per image, all idle (uHover 0, none lit) |
| Stage.UpdatePreservesValid | src/main.js:74-84 | re-positioning keeps one plane per image and the hover invariant |
| Stage.MouseMoveValid | src/main.js:86-105 | a pointer move gives one plane per image and the hover invariant, from any state with one plane per image |
| Stage.Step | src/main.js:107-126 | each event keeps the number of planes, and an event is admissible when its boxes match the planes one to one and its hit names one of them |
| Stage.Run | src/main.js:107-126 | running any admissible sequence of events keeps the number of planes |
| Stage.RunPreservesValid | src/main.js:107-126 | after startup and any sequence of events, there is one plane per image, every plane is idle or lit, and at most one is lit |
| Stage.RunKeepsGeometry | src/main.js:74-105 | no sequence of events resizes or re-textures a plane: each keeps the width, height and texture it was built with |

## Left out

- Ray casting (`src/main.js:90-91`): the intersection test and its nearest-first order belong to three.js. The nearest hit is an input. The model requires its index to name one of the planes, since the ray caster is only given the plane list.
- The GLSL vertex and fragment shaders (`src/main.js:18-44`) are floating-point GPU code. This includes the 30 x 30 block quantisation and the `smoothstep` falloff.
- The field of view's angle (`src/main.js:8`) is computed with `Math.atan` in degrees. The model does not compute the angle; it keeps only the scene height that angle shows at z = 0 (`Camera.viewHeight`). The device-pixel-ratio clamp (`src/main.js:16`) is renderer configuration and is not modelled.
- Texture loading, materials, meshes, the scene graph, `renderer.render` and `updateProjectionMatrix` (`src/main.js:6, 10-13, 55-57, 67, 70, 116, 121`) are library calls. A plane's texture is represented by its image's source URL.
- Stage.Project: covers only points of the plane z = 0 (where every plane lies) and a camera whose aspect matches the surface (true of every reachable gallery, `Stage.RunKeepsAspect`); the perspective division for other depths is three.js code.
- Event plumbing (`requestAnimationFrame`, DOM listeners, Locomotive Scroll wiring, `src/main.js:107-126`): only the handlers' effects are modelled. `Stage.Run` takes the events as a given sequence.
- Floating-point rounding: all arithmetic is exact over `real`. Infinities and NaN are one `NonFinite` value.
- The unused `imagesData` array (`src/main.js:47, 54`) and the unused gsap import (`src/main.js:3`) have no observable effect.

## Notes on the source

- The hover state is reset and then set within one synchronous handler, and frames render only from the animation loop. So a plane that stays under the pointer is never seen at `uHover` 0 between events. `HoverController.LatestHitWins` states this: consecutive hits on the same plane give the same state as the last hit alone.
- The source does not check that the hit's surface coordinate lies in [0, 1] x [0, 1]. The model stores whatever coordinate the ray caster reports.
- The field of view is fixed from the startup window height (`src/main.js:8`), and the resize handler (`src/main.js:119-123`) updates only the camera's aspect ratio (and the drawing surface's size). After a resize that changes the window height, one scene unit no longer covers one pixel, yet re-positioning still uses the one-pixel-per-unit formula. The planes then drift off their images: `Stage.DriftAfterHeightChange` states when, and `Stage.DriftExample` gives one case. The model reproduces this behaviour and does not correct it.

=== FILE: base.dfy ===
/** Value types shared by every part of the gallery model. */
module Base {

  /** The conventional Some/None datatype. */
  datatype Option<+T> = None | Some(value: T)

  /** A JavaScript number as far as this model needs one: a finite real, or
      the non-finite value (an infinity or NaN) that a division by zero gives.
      Floating-point rounding is not modelled. */
  datatype Num = Finite(value: real) | NonFinite

  /** JavaScript's `/`: a finite quotient unless the divisor is zero. */
  function Div(a: real, b: real): (r: Num)
    ensures r.Finite? <==> b != 0.0
    ensures r.Finite? ==> r.value * b == a
  {
    if b == 0.0 then NonFinite else Finite(a / b)
  }

  /** `n * k + c` on a JavaScript number, as in the `* 2 - 1` and
      `* 2 + 1` of pointer normalisation: a non-finite operand stays
      non-finite (an infinity times a non-zero constant plus a finite one is
      still infinite, and NaN stays NaN). */
  function Affine(n: Num, k: real, c: real): (r: Num)
    requires k != 0.0
    ensures r.Finite? <==> n.Finite?
    ensures r.Finite? ==> (r.value - c) / k == n.value
  {
    match n
    case Finite(v) => Finite(v * k + c)
    case NonFinite => NonFinite
  }

  datatype Vec2 = Vec2(x: real, y: real)

  datatype Vec3 = Vec3(x: real, y: real, z: real)
}

=== FILE: hover.dfy ===
/** The hover distortion controller: on every pointer move all planes are
    cleared, then the nearest plane under the pointer, if any, is lit and
    told where on its surface the pointer is. */
module HoverController {
  import opened Base
  import opened PlaneMirror

  /** The nearest intersection the ray caster reports: which plane it hit
      (its index in the plane list) and the surface coordinate of the hit. */
  datatype Hit = Hit(index: nat, uv: Vec2)

  /** The ray caster only ever reports planes of the list it was given. */
  predicate HitInRange(hit: Option<Hit>, count: nat)
  {
    hit.Some? ==> hit.value.index < count
  }

  /** Whether `i` is the plane a pointer event hit. */
  predicate IsHit(hit: Option<Hit>, i: int)
  {
    hit.Some? && hit.value.index == i
  }

  /** The indices of the planes whose `uHover` is 1. */
  function Hovered(planes: seq<Plane>): set<int>
  {
    set i | 0 <= i < |planes| && planes[i].uniforms.hover == 1.0
  }

  /** Every plane is either idle (`uHover` 0) or lit (`uHover` 1), and at most one is lit. */
  predicate HoverInvariant(planes: seq<Plane>)
  {
    && (forall i :: 0 <= i < |planes| ==>
          planes[i].uniforms.hover == 0.0 || planes[i].uniforms.hover == 1.0)
    && (forall i, j ::
          (0 <= i < |planes| && 0 <= j < |planes| &&
           planes[i].uniforms.hover == 1.0 && planes[j].uniforms.hover == 1.0) ==> i == j)
  }

  /** The sum of `uHover` over all planes. */
  function TotalHover(planes: seq<Plane>): real
  {
    if |planes| == 0 then 0.0 else TotalHover(planes[..|planes| - 1]) + planes[|planes| - 1].uniforms.hover
  }

  /** The first step of a pointer event: `uHover` of every plane becomes 0,
      whatever it was, and nothing else changes. */
  function ResetHover(planes: seq<Plane>): (r: seq<Plane>)
    ensures |r| == |planes|
    ensures forall i :: 0 <= i < |r| ==> r[i].uniforms.hover == 0.0
    ensures forall i :: 0 <= i < |r| ==>
      SameMesh(r[i], planes[i]) && r[i].uniforms.mouse == planes[i].uniforms.mouse
  {
    seq(|planes|, i requires 0 <= i < |planes| =>
      planes[i].(uniforms := planes[i].uniforms.(hover := 0.0)))
  }

  /** `onMouseMove` after the ray cast: all planes are cleared, then the hit
      plane, if any, gets `uMouse` = the hit's surface coordinate and
      `uHover` = 1. Every other plane keeps its `uMouse`, and no plane's
      geometry, texture or position changes. */
  function OnMouseMove(planes: seq<Plane>, hit: Option<Hit>): (r: seq<Plane>)
    requires HitInRange(hit, |planes|)
    ensures |r| == |planes|
    ensures forall i :: 0 <= i < |r| ==> SameMesh(r[i], planes[i])
    ensures forall i :: 0 <= i < |r| && IsHit(hit, i) ==>
      r[i].uniforms.hover == 1.0 && r[i].uniforms.mouse == hit.value.uv
    ensures forall i :: 0 <= i < |r| && !IsHit(hit, i) ==>
      r[i].uniforms.hover == 0.0 && r[i].uniforms.mouse == planes[i].uniforms.mouse
  {
    var cleared := ResetHover(planes);
    match hit
    case None => cleared
    case Some(h) =>
      var p := cleared[h.index];
      cleared[h.index := p.(uniforms := p.uniforms.(mouse := h.uv, hover := 1.0))]
  }

  /** After a pointer event exactly the hit plane is lit: none when nothing
      was hit, whatever was lit before. */
  lemma HoveredAfterMove(planes: seq<Plane>, hit: Option<Hit>)
    requires HitInRange(hit, |planes|)
    ensures Hovered(OnMouseMove(planes, hit)) == if hit.Some? then {hit.value.index as int} else {}
  {
    var r := OnMouseMove(planes, hit);
    if hit.Some? {
      assert hit.value.index in Hovered(r);
    }
  }

  /** After any pointer event every plane is idle or lit, and at most one is lit. */
  lemma MoveEstablishesHoverInvariant(planes: seq<Plane>, hit: Option<Hit>)
    requires HitInRange(hit, |planes|)
    ensures HoverInvariant(OnMouseMove(planes, hit))
  {
  }

  /** Two pointer events in a row, the second hitting nothing, leave every
      plane idle even if the first one lit a plane. */
  lemma MissAfterHitClearsAll(planes: seq<Plane>, first: Option<Hit>)
    requires HitInRange(first, |planes|)
    ensures var r := OnMouseMove(OnMouseMove(planes, first), None);
      forall i :: 0 <= i < |r| ==> r[i].uniforms.hover == 0.0
  {
  }

  /** Only the latest event matters for the lit plane: a hit on the same
      plane as the previous event (or after a miss) gives the same planes
      as that hit alone, so a plane that stays under the pointer stays lit. */
  lemma LatestHitWins(planes: seq<Plane>, first: Option<Hit>, second: Hit)
    requires HitInRange(first, |planes|) && second.index < |planes|
    requires first.Some? ==> first.value.index == second.index
    ensures OnMouseMove(OnMouseMove(planes, first), Some(second)) == OnMouseMove(planes, Some(second))
  {
    var a := OnMouseMove(OnMouseMove(planes, first), Some(second));
    var b := OnMouseMove(planes, Some(second));
    forall i | 0 <= i < |a|
      ensures a[i] == b[i]
    {
    }
  }

  /** If every plane but `k` is idle, the total intensity is that of plane `k`. */
  lemma {:induction false} TotalHoverSingle(planes: seq<Plane>, k: int)
    requires 0 <= k < |planes|
    requires forall i :: 0 <= i < |planes| && i != k ==> planes[i].uniforms.hover == 0.0
    ensures TotalHover(planes) == planes[k].uniforms.hover
  {
    var n := |planes| - 1;
    if k == n {
      TotalHoverIdle(planes[..n]);
    } else {
      TotalHoverSingle(planes[..n], k);
    }
  }

  /** With every plane idle the total intensity is 0. */
  lemma {:induction false} TotalHoverIdle(planes: seq<Plane>)
    requires forall i :: 0 <= i < |planes| ==> planes[i].uniforms.hover == 0.0
    ensures TotalHover(planes) == 0.0
  {
    if |planes| > 0 {
      TotalHoverIdle(planes[..|planes| - 1]);
    }
  }

  /** After a pointer event the intensities sum to 1 when a plane was hit
      and to 0 when none was. */
  lemma TotalHoverAfterMove(planes: seq<Plane>, hit: Option<Hit>)
    requires HitInRange(hit, |planes|)
    ensures TotalHover(OnMouseMove(planes, hit)) == if hit.Some? then 1.0 else 0.0
  {
    var r := OnMouseMove(planes, hit);
    match hit
    case None => TotalHoverIdle(r);
    case Some(h) => TotalHoverSingle(r, h.index);
  }
}

=== FILE: layout.dfy ===
/** Screen and scene coordinates, and where a plane goes for a given image box. */
module Layout {
  import opened Base

  /** What `getBoundingClientRect` reports for an element: viewport pixels,
      origin at the top-left corner of the window, y growing downwards. */
  datatype Box = Box(left: real, top: real, width: real, height: real)

  /** The window's inner size in pixels (`innerWidth`, `innerHeight`). */
  datatype Viewport = Viewport(width: real, height: real)

  /** The screen point in the middle of a box. */
  function Centre(b: Box): Vec2
  {
    Vec2(b.left + b.width / 2.0, b.top + b.height / 2.0)
  }

  /** Scene space has its origin at the viewport centre and y growing upwards.
      At the scale the camera is set up for at startup, one scene unit
      covers one pixel in the plane z = 0, and a scene point (x, y, 0) maps
      to this screen point. The camera keeps that scale only while the
      window keeps its startup height (see `Stage.Project`). */
  function SceneToScreen(p: Vec3, vp: Viewport): Vec2
  {
    Vec2(p.x + vp.width / 2.0, vp.height / 2.0 - p.y)
  }

  /** The position given to the plane mirroring an image with box `b`: the
      point of the plane z = 0 that maps to the centre of the box at the
      startup one-unit-per-pixel scale. */
  function PlanePosition(b: Box, vp: Viewport): (p: Vec3)
    ensures p.z == 0.0
    ensures SceneToScreen(p, vp) == Centre(b)
  {
    Vec3(b.left - vp.width / 2.0 + b.width / 2.0,
         -b.top + vp.height / 2.0 - b.height / 2.0,
         0.0)
  }

  /** No other point of the plane z = 0 maps to the box centre: the
      position is determined by the box and the viewport alone. */
  lemma PlanePositionUnique(b: Box, vp: Viewport, p: Vec3)
    ensures (p.z == 0.0 && SceneToScreen(p, vp) == Centre(b)) <==> p == PlanePosition(b, vp)
  {
  }

  /** At the startup scale, a plane of the box's size at that position
      covers exactly the box: its top-left corner maps to the box's top-left
      corner and its bottom-right corner to the box's bottom-right corner. */
  lemma PlaneCoversBox(b: Box, vp: Viewport)
    ensures var p := PlanePosition(b, vp);
      && SceneToScreen(Vec3(p.x - b.width / 2.0, p.y + b.height / 2.0, 0.0), vp) == Vec2(b.left, b.top)
      && SceneToScreen(Vec3(p.x + b.width / 2.0, p.y - b.height / 2.0, 0.0), vp)
         == Vec2(b.left + b.width, b.top + b.height)
  {
  }

  /** The worked example: box (100, 50, 200, 80) in a 1000 x 800 window. */
  lemma PlanePositionExample()
    ensures PlanePosition(Box(100.0, 50.0, 200.0, 80.0), Viewport(1000.0, 800.0)) == Vec3(-300.0, 310.0, 0.0)
  {
  }
}

=== FILE: planes.dfy ===
/** The plane mirror: one textured plane per `<img>`, built at startup and
    re-positioned under its image on every frame and scroll. */
module PlaneMirror {
  import opened Base
  import opened Layout

  /** One `<img>` element: the URL its texture is loaded from, and its box as
      measured when the planes are built. */
  datatype Image = Image(src: string, box: Box)

  /** The uniforms of a plane's shader material: the texture, `uMouse` (the
      surface coordinate the distortion centres on) and `uHover` (the
      distortion's intensity). */
  datatype Uniforms = Uniforms(texture: string, mouse: Vec2, hover: real)

  /** One mesh: the width and height its plane geometry was built with, its
      material's uniforms, and its position in scene space. */
  datatype Plane = Plane(width: real, height: real, uniforms: Uniforms, position: Vec3)

  /** `uMouse` and `uHover` of a freshly built material. */
  const InitialMouse := Vec2(0.5, 0.5)
  const InitialHover := 0.0

  /** The parts of a plane that no pointer event touches: geometry, texture and position. */
  predicate SameMesh(p: Plane, q: Plane)
  {
    && p.width == q.width
    && p.height == q.height
    && p.uniforms.texture == q.uniforms.texture
    && p.position == q.position
  }

  /** The parts of a plane that re-positioning does not touch: everything but the position. */
  predicate SameExceptPosition(p: Plane, q: Plane)
  {
    p.width == q.width && p.height == q.height && p.uniforms == q.uniforms
  }

  /** The plane built for one image: geometry of the box's size, the image's
      texture, the initial uniforms, centred over the box. */
  function MakePlane(img: Image, vp: Viewport): (p: Plane)
    ensures p.width == img.box.width && p.height == img.box.height
    ensures p.uniforms.texture == img.src
    ensures p.uniforms.mouse == Vec2(0.5, 0.5) && p.uniforms.hover == 0.0
    ensures p.position.z == 0.0 && SceneToScreen(p.position, vp) == Centre(img.box)
  {
    Plane(img.box.width, img.box.height,
          Uniforms(img.src, InitialMouse, InitialHover),
          PlanePosition(img.box, vp))
  }

  /** The planes built at startup: the images are visited in document order
      and each new plane is pushed at the end of the list. */
  function Initialize(images: seq<Image>, vp: Viewport): (planes: seq<Plane>)
    ensures |planes| == |images|
    ensures forall i :: 0 <= i < |planes| ==> planes[i] == MakePlane(images[i], vp)
  {
    if |images| == 0 then []
    else Initialize(images[..|images| - 1], vp) + [MakePlane(images[|images| - 1], vp)]
  }

  /** Every plane built at startup matches its own image, index by index. */
  lemma InitializeMatchesImages(images: seq<Image>, vp: Viewport, i: int)
    requires 0 <= i < |images|
    ensures |Initialize(images, vp)| == |images|
    ensures var p := Initialize(images, vp)[i];
      && p.width == images[i].box.width && p.height == images[i].box.height
      && p.uniforms == Uniforms(images[i].src, Vec2(0.5, 0.5), 0.0)
      && p.position.z == 0.0 && SceneToScreen(p.position, vp) == Centre(images[i].box)
  {
  }

  /** The boxes of the images, in the same order. */
  function BoxesOf(images: seq<Image>): (boxes: seq<Box>)
    ensures |boxes| == |images|
    ensures forall i :: 0 <= i < |boxes| ==> boxes[i] == images[i].box
  {
    seq(|images|, i requires 0 <= i < |images| => images[i].box)
  }

  /** `updatePlanePosition`: each plane is moved over the current box of the
      image with the same index; nothing else about it changes. */
  function Resync(planes: seq<Plane>, boxes: seq<Box>, vp: Viewport): (r: seq<Plane>)
    requires |boxes| == |planes|
    ensures |r| == |planes|
    ensures forall i :: 0 <= i < |r| ==> SameExceptPosition(r[i], planes[i])
    ensures forall i :: 0 <= i < |r| ==>
      r[i].position.z == 0.0 && SceneToScreen(r[i].position, vp) == Centre(boxes[i])
  {
    seq(|planes|, i requires 0 <= i < |planes| => planes[i].(position := PlanePosition(boxes[i], vp)))
  }

  /** Re-positioning has no memory: planes that differ only in where they
      were are re-positioned to identical planes. */
  lemma ResyncMemoryless(p1: seq<Plane>, p2: seq<Plane>, boxes: seq<Box>, vp: Viewport)
    requires |p1| == |p2| == |boxes|
    requires forall i :: 0 <= i < |p1| ==> SameExceptPosition(p1[i], p2[i])
    ensures Resync(p1, boxes, vp) == Resync(p2, boxes, vp)
  {
    var r1, r2 := Resync(p1, boxes, vp), Resync(p2, boxes, vp);
    forall i | 0 <= i < |r1|
      ensures r1[i] == r2[i]
    {
      PlanePositionUnique(boxes[i], vp, r1[i].position);
      PlanePositionUnique(boxes[i], vp, r2[i].position);
    }
  }

  /** Re-positioning twice with the same boxes is re-positioning once. */
  lemma ResyncIdempotent(planes: seq<Plane>, boxes: seq<Box>, vp: Viewport)
    requires |boxes| == |planes|
    ensures Resync(Resync(planes, boxes, vp), boxes, vp) == Resync(planes, boxes, vp)
  {
    ResyncMemoryless(Resync(planes, boxes, vp), planes, boxes, vp);
  }

  /** Startup places every plane exactly where re-positioning would put it
      for the same boxes and window: a re-position straight after startup
      changes nothing. */
  lemma InitializeAgreesWithResync(images: seq<Image>, vp: Viewport)
    ensures Resync(Initialize(images, vp), BoxesOf(images), vp) == Initialize(images, vp)
  {
    var planes := Initialize(images, vp);
    var r := Resync(planes, BoxesOf(images), vp);
    forall i | 0 <= i < |r|
      ensures r[i] == planes[i]
    {
      PlanePositionUnique(images[i].box, vp, r[i].position);
    }
  }
}

=== FILE: pointer.dfy ===
/** Pointer normalisation: client pixels to the [-1, 1] coordinates the ray
    caster expects, x to the right and y upwards. */
module Pointer {
  import opened Base
  import opened Layout

  /** Normalised device coordinates of the pointer, one JavaScript number per axis. */
  datatype Ndc = Ndc(x: Num, y: Num)

  /** The pointer position before any pointer event: a fresh `Vector2`. */
  const Origin := Ndc(Finite(0.0), Finite(0.0))

  /** `clientX / innerWidth * 2 - 1` and `-(clientY / innerHeight) * 2 + 1`.
      An axis whose window size is zero becomes non-finite. */
  function Normalize(client: Vec2, vp: Viewport): (r: Ndc)
    ensures r.x.Finite? <==> vp.width != 0.0
    ensures r.y.Finite? <==> vp.height != 0.0
    ensures r.x.Finite? ==> (r.x.value + 1.0) * vp.width == 2.0 * client.x
    ensures r.y.Finite? ==> (1.0 - r.y.value) * vp.height == 2.0 * client.y
  {
    Ndc(Affine(Div(client.x, vp.width), 2.0, -1.0),
        Affine(Div(client.y, vp.height), -2.0, 1.0))
  }

  /** The client point a pair of finite normalised coordinates stands for. */
  function Denormalize(x: real, y: real, vp: Viewport): Vec2
  {
    Vec2((x + 1.0) / 2.0 * vp.width, (1.0 - y) / 2.0 * vp.height)
  }

  /** Dividing by a non-zero factor undoes multiplying by it. */
  lemma MulDivCancel(k: real, w: real)
    requires w != 0.0
    ensures (k * w) / w == k
  {
  }

  /** Scaling by a positive factor keeps order and equality. */
  lemma ScaleLess(s: real, t: real, w: real)
    requires w > 0.0
    ensures s * w < t * w <==> s < t
    ensures s * w == t * w <==> s == t
  {
    if s < t {
      assert t * w - s * w == (t - s) * w;
    } else if t < s {
      assert s * w - t * w == (s - t) * w;
    }
  }

  /** If `t * w == 2 * c` for a positive `w`, then `c` lies in [0, w]
      exactly when `t` lies in [0, 2]. */
  lemma HalfScaleInside(t: real, c: real, w: real)
    requires w > 0.0 && t * w == 2.0 * c
    ensures (0.0 <= c <= w) <==> (0.0 <= t <= 2.0)
  {
    ScaleLess(0.0, t, w);
    ScaleLess(t, 2.0, w);
  }

  /** In a window of non-zero size normalisation loses nothing: mapping the
      result back gives the client point again. */
  lemma NormalizeRoundTrip(client: Vec2, vp: Viewport)
    requires vp.width != 0.0 && vp.height != 0.0
    ensures var n := Normalize(client, vp);
      n.x.Finite? && n.y.Finite? && Denormalize(n.x.value, n.y.value, vp) == client
  {
    var n := Normalize(client, vp);
    assert (n.x.value + 1.0) / 2.0 * vp.width == client.x;
    assert (1.0 - n.y.value) / 2.0 * vp.height == client.y;
  }

  /** ... and every finite pair of normalised coordinates is reached, by
      the client point it stands for. */
  lemma DenormalizeRoundTrip(x: real, y: real, vp: Viewport)
    requires vp.width != 0.0 && vp.height != 0.0
    ensures Normalize(Denormalize(x, y, vp), vp) == Ndc(Finite(x), Finite(y))
  {
    MulDivCancel((x + 1.0) / 2.0, vp.width);
    MulDivCancel((1.0 - y) / 2.0, vp.height);
  }

  /** The window's corners: the left edge maps to -1, the right edge to 1,
      the top edge to 1 and the bottom edge to -1. */
  lemma NormalizeCorners(vp: Viewport)
    requires vp.width != 0.0 && vp.height != 0.0
    ensures Normalize(Vec2(0.0, 0.0), vp) == Ndc(Finite(-1.0), Finite(1.0))
    ensures Normalize(Vec2(vp.width, vp.height), vp) == Ndc(Finite(1.0), Finite(-1.0))
  {
  }

  /** In a window of positive size, moving right increases x and moving down
      decreases y. */
  lemma NormalizeMonotone(a: Vec2, b: Vec2, vp: Viewport)
    requires vp.width > 0.0 && vp.height > 0.0
    ensures var na, nb := Normalize(a, vp), Normalize(b, vp);
      && (a.x < b.x <==> na.x.value < nb.x.value)
      && (a.y < b.y <==> na.y.value > nb.y.value)
  {
    var na, nb := Normalize(a, vp), Normalize(b, vp);
    ScaleLess(na.x.value + 1.0, nb.x.value + 1.0, vp.width);
    ScaleLess(1.0 - na.y.value, 1.0 - nb.y.value, vp.height);
  }

  /** In a window of positive size, a pointer lies inside the window exactly
      when both normalised coordinates lie in [-1, 1]. */
  lemma NormalizeInsideWindow(client: Vec2, vp: Viewport)
    requires vp.width > 0.0 && vp.height > 0.0
    ensures var n := Normalize(client, vp);
      (0.0 <= client.x <= vp.width && 0.0 <= client.y <= vp.height)
      <==> (-1.0 <= n.x.value <= 1.0 && -1.0 <= n.y.value <= 1.0)
  {
    var n := Normalize(client, vp);
    HalfScaleInside(n.x.value + 1.0, client.x, vp.width);
    HalfScaleInside(1.0 - n.y.value, client.y, vp.height);
  }
}

=== FILE: stage.dfy ===
/** The whole gallery as one state: the planes, the camera, the last
    normalised pointer and the size of the drawing surface, with the four
    things that change it (startup, re-positioning, pointer move, resize). */
module Stage {
  import opened Base
  import opened Layout
  import opened PlaneMirror
  import opened Pointer
  import opened HoverController

  /** The camera's distance from the plane z = 0, in scene units. */
  const CameraDistance := 600.0

  /** The perspective camera's settings. The field of view, computed once at
      startup from the window height and `CameraDistance` with an arc
      tangent, is represented by what it achieves: `viewHeight`, the number
      of scene units it shows vertically in the plane z = 0, which is the
      window height at startup. */
  datatype Camera = Camera(aspect: Num, near: real, far: real, z: real, viewHeight: real)

  datatype Gallery = Gallery(planes: seq<Plane>, camera: Camera, pointer: Ndc, surface: Viewport)

  /** What every reachable gallery satisfies: one plane per image, every
      plane idle or lit, at most one lit. */
  predicate Valid(g: Gallery, imageCount: nat)
  {
    |g.planes| == imageCount && HoverInvariant(g.planes)
  }

  /** The camera's aspect ratio is the one JavaScript computes for the
      surface: pixels are square. Startup and every resize set it so. */
  predicate AspectMatches(cam: Camera, surface: Viewport)
  {
    cam.aspect == Div(surface.width, surface.height)
  }

  /** Where the camera draws the scene point (x, y, 0) on a surface of the
      given size. The field of view spreads `viewHeight` scene units over
      the surface's height and the aspect ratio keeps pixels square, so one
      scene unit covers `surface.height / viewHeight` pixels on both axes,
      measured from the surface's centre. A zero view height (a zero field of
      view) shows nothing. */
  function Project(p: Vec3, cam: Camera, surface: Viewport): (r: Option<Vec2>)
    requires p.z == 0.0 && AspectMatches(cam, surface)
    ensures r.Some? <==> cam.viewHeight != 0.0
    ensures r.Some? ==> (r.value.x - surface.width / 2.0) * cam.viewHeight == p.x * surface.height
    ensures r.Some? ==> (surface.height / 2.0 - r.value.y) * cam.viewHeight == p.y * surface.height
    ensures r.Some? && cam.viewHeight == surface.height ==> r.value == SceneToScreen(p, surface)
  {
    if cam.viewHeight == 0.0 then None
    else
      var k := surface.height / cam.viewHeight;
      Some(Vec2(surface.width / 2.0 + p.x * k, surface.height / 2.0 - p.y * k))
  }

  /** Startup: the camera looks at the window with aspect ratio
      width / height from `CameraDistance`, its field of view shows the
      window's height, the surface has the window's size, and the planes
      are built from the images. */
  function Startup(images: seq<Image>, vp: Viewport): (g: Gallery)
    ensures g.planes == Initialize(images, vp)
    ensures g.camera.z == CameraDistance
    ensures g.camera.near == 0.1 && g.camera.far == 1000.0
    ensures g.camera.viewHeight == vp.height
    ensures g.camera.aspect.Finite? <==> vp.height != 0.0
    ensures g.camera.aspect.Finite? ==> g.camera.aspect.value * vp.height == vp.width
    ensures g.surface == vp && g.pointer == Origin
  {
    Gallery(Initialize(images, vp),
            Camera(Div(vp.width, vp.height), 0.1, 1000.0, CameraDistance, vp.height),
            Origin,
            vp)
  }

  /** Re-positioning on DOMContentLoaded, on every animation frame and on
      every smooth-scroll event, from the boxes and window size of that moment. */
  function UpdatePlanePosition(g: Gallery, boxes: seq<Box>, vp: Viewport): (r: Gallery)
    requires |boxes| == |g.planes|
    ensures r.camera == g.camera && r.pointer == g.pointer && r.surface == g.surface
    ensures |r.planes| == |g.planes|
    ensures forall i :: 0 <= i < |r.planes| ==>
      SameExceptPosition(r.planes[i], g.planes[i]) && r.planes[i].position == PlanePosition(boxes[i], vp)
  {
    g.(planes := Resync(g.planes, boxes, vp))
  }

  /** A pointer move at client point `client`: the pointer is normalised and
      the planes' hover state follows the ray caster's nearest hit `hit`,
      which is given since the intersection test is not part of this model. */
  function MouseMove(g: Gallery, client: Vec2, vp: Viewport, hit: Option<Hit>): (r: Gallery)
    requires HitInRange(hit, |g.planes|)
    ensures r.camera == g.camera && r.surface == g.surface
    ensures r.pointer == Normalize(client, vp)
    ensures r.planes == OnMouseMove(g.planes, hit)
    ensures Hovered(r.planes) == if hit.Some? then {hit.value.index as int} else {}
    ensures |r.planes| == |g.planes|
    ensures forall i :: 0 <= i < |r.planes| ==> SameMesh(r.planes[i], g.planes[i])
    ensures forall i :: 0 <= i < |r.planes| && IsHit(hit, i) ==>
      r.planes[i].uniforms.hover == 1.0 && r.planes[i].uniforms.mouse == hit.value.uv
    ensures forall i :: 0 <= i < |r.planes| && !IsHit(hit, i) ==>
      r.planes[i].uniforms.hover == 0.0 && r.planes[i].uniforms.mouse == g.planes[i].uniforms.mouse
  {
    HoveredAfterMove(g.planes, hit);
    g.(pointer := Normalize(client, vp), planes := OnMouseMove(g.planes, hit))
  }

  /** A window resize: the camera's aspect ratio becomes width / height and
      the surface takes the new size; the field of view, the planes and the
      pointer are untouched. */
  function Resize(g: Gallery, vp: Viewport): (r: Gallery)
    ensures r.camera.viewHeight == g.camera.viewHeight
    ensures r.camera.near == g.camera.near
    ensures r.camera.far == g.camera.far && r.camera.z == g.camera.z
    ensures r.camera.aspect.Finite? <==> vp.height != 0.0
    ensures r.camera.aspect.Finite? ==> r.camera.aspect.value * vp.height == vp.width
    ensures r.surface == vp && r.planes == g.planes && r.pointer == g.pointer
  {
    g.(camera := g.camera.(aspect := Div(vp.width, vp.height)), surface := vp)
  }

  /** While the window has the height the camera was set up for,
      re-positioning puts every plane's centre on its image's centre. */
  lemma AlignedAtStartupHeight(g: Gallery, boxes: seq<Box>, vp: Viewport)
    requires |boxes| == |g.planes|
    requires g.surface == vp && g.camera.viewHeight == vp.height && vp.height != 0.0
    requires AspectMatches(g.camera, vp)
    ensures var r := UpdatePlanePosition(g, boxes, vp);
      forall i :: 0 <= i < |boxes| ==> Project(r.planes[i].position, r.camera, r.surface) == Some(Centre(boxes[i]))
  {
  }

  /** Once the window height differs from the one the camera was set up for,
      a re-positioned plane is drawn at its image's centre only if its
      position is the scene origin: all other planes drift off their images. */
  lemma DriftAfterHeightChange(b: Box, cam: Camera, vp: Viewport)
    requires cam.viewHeight != 0.0 && AspectMatches(cam, vp)
    ensures Project(PlanePosition(b, vp), cam, vp) == Some(Centre(b))
        <==> (vp.height == cam.viewHeight || PlanePosition(b, vp) == Vec3(0.0, 0.0, 0.0))
  {
    var p := PlanePosition(b, vp);
    var k := vp.height / cam.viewHeight;
    assert k * cam.viewHeight == vp.height;
    if vp.height != cam.viewHeight {
      assert k != 1.0;
      if Project(p, cam, vp) == Some(Centre(b)) {
        assert p.x * k == p.x && p.y * k == p.y;
        assert p.x * (k - 1.0) == 0.0 && p.y * (k - 1.0) == 0.0;
      }
    }
  }

  /** The drift on one image: box (100, 50, 200, 80), centre (200, 90), set up
      in a 1000 x 800 window; after the window shrinks to 1000 x 400 and the
      planes are re-positioned, the plane is drawn at (350, 145). */
  lemma DriftExample()
    ensures var b := Box(100.0, 50.0, 200.0, 80.0);
      var small := Viewport(1000.0, 400.0);
      var g := Run(Startup([Image("photo.jpg", b)], Viewport(1000.0, 800.0)),
                   [WindowResize(small), Sync([b], small)]);
      && Centre(b) == Vec2(200.0, 90.0)
      && g.planes[0].position.z == 0.0 && AspectMatches(g.camera, g.surface)
      && Project(g.planes[0].position, g.camera, g.surface) == Some(Vec2(350.0, 145.0))
  {
    var b := Box(100.0, 50.0, 200.0, 80.0);
    var small := Viewport(1000.0, 400.0);
    var g0 := Startup([Image("photo.jpg", b)], Viewport(1000.0, 800.0));
    var g1 := Step(g0, WindowResize(small));
    var g2 := Step(g1, Sync([b], small));
    var events := [WindowResize(small), Sync([b], small)];
    assert events[1..][1..] == [];
    assert Run(g0, events) == Run(g1, events[1..]) == Run(g2, []) == g2;
    assert g2.planes[0].position == Vec3(-300.0, 110.0, 0.0);
  }

  /** A resize with the window's current size changes nothing further. */
  lemma ResizeIdempotent(g: Gallery, vp: Viewport)
    ensures Resize(Resize(g, vp), vp) == Resize(g, vp)
  {
  }

  /** Startup yields a valid gallery. */
  lemma StartupValid(images: seq<Image>, vp: Viewport)
    ensures Valid(Startup(images, vp), |images|)
    ensures Hovered(Startup(images, vp).planes) == {}
    ensures forall i :: 0 <= i < |images| ==> Startup(images, vp).planes[i].uniforms.hover == 0.0
  {
  }

  /** Re-positioning keeps a gallery valid. */
  lemma UpdatePreservesValid(g: Gallery, n: nat, boxes: seq<Box>, vp: Viewport)
    requires Valid(g, n) && |boxes| == n
    ensures Valid(UpdatePlanePosition(g, boxes, vp), n)
  {
  }

  /** A pointer move leaves a valid gallery, whatever the state before it. */
  lemma MouseMoveValid(g: Gallery, n: nat, client: Vec2, vp: Viewport, hit: Option<Hit>)
    requires |g.planes| == n && HitInRange(hit, n)
    ensures Valid(MouseMove(g, client, vp, hit), n)
  {
    MoveEstablishesHoverInvariant(g.planes, hit);
  }

  /** One event delivered to the page after startup. */
  datatype Event =
    | Sync(boxes: seq<Box>, vp: Viewport)             // DOMContentLoaded, animation frame, scroll
    | Move(client: Vec2, vp: Viewport, hit: Option<Hit>)
    | WindowResize(vp: Viewport)

  /** An event the page can actually receive with `n` planes: one box per
      image, and a hit only on one of the planes. */
  predicate Admissible(e: Event, n: nat)
  {
    match e
    case Sync(boxes, _) => |boxes| == n
    case Move(_, _, hit) => HitInRange(hit, n)
    case WindowResize(_) => true
  }

  function Step(g: Gallery, e: Event): (r: Gallery)
    requires Admissible(e, |g.planes|)
    ensures |r.planes| == |g.planes|
  {
    match e
    case Sync(boxes, vp) => UpdatePlanePosition(g, boxes, vp)
    case Move(client, vp, hit) => MouseMove(g, client, vp, hit)
    case WindowResize(vp) => Resize(g, vp)
  }

  /** The gallery after a sequence of events, in order. */
  function Run(g: Gallery, events: seq<Event>): (r: Gallery)
    requires forall k :: 0 <= k < |events| ==> Admissible(events[k], |g.planes|)
    ensures |r.planes| == |g.planes|
    decreases |events|
  {
    if |events| == 0 then g else Run(Step(g, events[0]), events[1..])
  }

  /** Whatever events follow startup, the gallery keeps one plane per image,
      every plane idle or lit, and at most one lit. */
  lemma {:induction false} RunPreservesValid(g: Gallery, n: nat, events: seq<Event>)
    requires Valid(g, n)
    requires forall k :: 0 <= k < |events| ==> Admissible(events[k], n)
    ensures Valid(Run(g, events), n)
    decreases |events|
  {
    if |events| > 0 {
      var e := events[0];
      match e {
        case Sync(boxes, vp) => UpdatePreservesValid(g, n, boxes, vp);
        case Move(client, vp, hit) => MouseMoveValid(g, n, client, vp, hit);
        case WindowResize(vp) =>
      }
      RunPreservesValid(Step(g, e), n, events[1..]);
    }
  }

  /** Planes are never resized or re-textured after startup: whatever events
      follow, every plane keeps the geometry and texture it was built with. */
  lemma {:induction false} RunKeepsGeometry(g: Gallery, events: seq<Event>)
    requires forall k :: 0 <= k < |events| ==> Admissible(events[k], |g.planes|)
    ensures forall i :: 0 <= i < |g.planes| ==>
      && Run(g, events).planes[i].width == g.planes[i].width
      && Run(g, events).planes[i].height == g.planes[i].height
      && Run(g, events).planes[i].uniforms.texture == g.planes[i].uniforms.texture
    decreases |events|
  {
    if |events| > 0 {
      RunKeepsGeometry(Step(g, events[0]), events[1..]);
    }
  }

  /** Whatever events follow, the camera's aspect ratio stays the one of the
      drawing surface, so `Project` applies to every reachable gallery. */
  lemma {:induction false} RunKeepsAspect(g: Gallery, events: seq<Event>)
    requires AspectMatches(g.camera, g.surface)
    requires forall k :: 0 <= k < |events| ==> Admissible(events[k], |g.planes|)
    ensures AspectMatches(Run(g, events).camera, Run(g, events).surface)
    decreases |events|
  {
    if |events| > 0 {
      RunKeepsAspect(Step(g, events[0]), events[1..]);
    }
  }
}
